=== FILE: README.md ===
# HR admin console — a Dafny model of its list logic and screen state

This project models the part of an HR administration console that has
checkable behaviour: the in-memory keyed store of employees and candidates,
the employee table's derived views and form handling, and the state machines
of the companies, candidates and departments screens.

Every record is an immutable Dafny datatype and every list a `seq`. Each screen
is a state record, and each user event is a pure function from one state to
the next. A network request is never performed. The step function returns the
request the event sends (`Step(screen, sent)`), and it takes the request's
outcome as an argument:

- `Reply<T>` is the outcome of a single request: `Ok(value)` or `Failed`.
- `Refresh<T>` is the outcome of a write followed by a re-fetch of the list:
  `WriteFailed`, `RefetchFailed` or `Refreshed(list)`.

The screens run some statements between the write and the re-fetch, so a
failed re-fetch is a distinct outcome.

Modules, one per source file, plus three shared helpers:

- `Common` holds `Option`, `Reply`, `Refresh` and `Step`.
- `Seqs` models `findIndex` and `filter`, and replacing the element at the first match.
- `Text` covers ASCII `toLowerCase` and `includes`. It also has the `<` order on
  strings, and the decimal rendering of integral numbers with its inverse.
- `DatabaseService` is `src/app/services/DatabaseService.ts`.
- `EmployeeView` holds the lookups, search and sort of `src/app/components/EmployeeTable.tsx`.
- `EmployeeTable` holds that file's form, dispatch and state transitions.
- `CompaniesPage`, `CandidatesPage` and `DepartmentsPage` are the three `page.tsx` screens.

Points where the code decides, and the model follows it:

- Ids are not unique. An update touches the first record with the id. A
  delete removes every record with it.
- Sorting by salary compares the employee's numeric `salary` field. It does
  not compare the looked-up salary label.
- The update payload of the employee table sets `department` to the form's
  `name`. The model keeps this (`EmployeeTable.UpdatePayload`).
- The companies screen tests `if (editingCompany)`. An edit target whose id is
  the empty string therefore counts as "not editing", and the submit creates a
  company (`CompaniesPage.EmptyTargetCreates`).
- The screens reconcile differently after a successful write. Companies
  patches the local list. Candidates and departments re-fetch after a save.
  Candidates filters locally after a delete, while departments and employees
  re-fetch.
- A failed candidate save keeps the edit target. A failed department save
  clears it in `finally`, so re-submitting creates a new department
  (`DepartmentsPage.FailedUpdateThenCreates`).

## Model

| member | source | states |
|---|---|---|
| Seqs.FindIndex | src/app/services/DatabaseService.ts:49 | `findIndex` returns -1 exactly when no element matches; otherwise it returns a matching index with no match before it |
| Seqs.UpdateFirst | src/app/services/DatabaseService.ts:56-60 | the slice-and-splice rewrite keeps the length, changes only the first matching index and leaves the list unchanged when nothing matches |
| Seqs.Filter | src/app/services/DatabaseService.ts:67 | `filter` keeps only passing elements, and each passing element as often as in the input |
| Seqs.FilterIsSubsequence | src/app/services/DatabaseService.ts:67 | the filtered list is an order-preserving subsequence of the input |
| Seqs.FilterAppend | src/app/services/DatabaseService.ts:67 | filtering a concatenation is concatenating the filtered parts |
| DatabaseService.MergeEmployee | src/app/services/DatabaseService.ts:58 | `{...old, ...partial}`: each of the eight properties is the patch's value when supplied and the old record's otherwise |
| DatabaseService.MergeCandidate | src/app/services/DatabaseService.ts:82 | the candidate spread: each of the four properties is the patch's when supplied and the old one otherwise |
| DatabaseService.MergeEmployeeLaws | src/app/services/DatabaseService.ts:48-58 | `{...old, ...partial}`: an empty patch is the identity and a complete patch replaces all; re-applying a patch is idempotent; two merges equal one merge with the combined patch |
| DatabaseService.MergeCandidateLaws | src/app/services/DatabaseService.ts:79-82 | candidate spread: an empty patch is the identity; re-applying a patch is idempotent |
| DatabaseService.AddEmployee | src/app/services/DatabaseService.ts:44-46 | the new list is the old list followed by the employee (length + 1); candidates untouched |
| DatabaseService.UpdateEmployee | src/app/services/DatabaseService.ts:48-64 | returns the new stored list; a missing id leaves the store unchanged; otherwise the length is kept, the first record with the id becomes the merge, and every other index (later duplicates included) is unchanged |
| DatabaseService.UpdateEmployeeEmptyPatch | src/app/services/DatabaseService.ts:48-63 | an update with the empty patch leaves the store as it was, whether or not the id is present |
| DatabaseService.UpdateEmployeeKeepsTarget | src/app/services/DatabaseService.ts:49-60 | a patch that does not change the id keeps the updated record the first one with that id |
| DatabaseService.DeleteEmployee | src/app/services/DatabaseService.ts:66-68 | no record with the id remains; every other record stays exactly as often as before; candidates untouched |
| DatabaseService.DeleteEmployeeOrderAndIdempotence | src/app/services/DatabaseService.ts:66-68 | survivors keep their relative order; deleting the same id twice is deleting it once |
| DatabaseService.AddThenDeleteEmployee | src/app/services/DatabaseService.ts:44-68 | adding an employee under an unused id and deleting that id restores the store |
| DatabaseService.AddCandidate | src/app/services/DatabaseService.ts:75-77 | the candidate list gains the record at its end; employees untouched |
| DatabaseService.UpdateCandidate | src/app/services/DatabaseService.ts:79-84 | a missing id is a no-op; otherwise only the first candidate with the id becomes the merge |
| DatabaseService.DeleteCandidate | src/app/services/DatabaseService.ts:86-88 | all candidates with the id go; the others stay exactly as often as before |
| DatabaseService.DeleteCandidateOrderAndIdempotence | src/app/services/DatabaseService.ts:86-88 | survivors keep their order; the delete is idempotent |
| Text.Lower | src/app/components/EmployeeTable.tsx:183-184 | `toLowerCase` keeps the length and maps each character through the ASCII letter case mapping, leaving every other character alone |
| Text.Includes | src/app/components/EmployeeTable.tsx:183-184 | `includes` holds exactly when the needle occurs at some index of the haystack |
| Text.LowerIdempotent | src/app/components/EmployeeTable.tsx:183-184 | lower-casing leaves no upper-case letter and is idempotent |
| Text.StrLess | src/app/components/EmployeeTable.tsx:194-196 | string `<`: at the first index where the strings differ, the smaller character decides; a proper prefix is less than each of its extensions, and no string is less than its own prefix (itself included) |
| Text.StrLessTotal | src/app/components/EmployeeTable.tsx:194-196 | two different strings are always ordered by `<` one way or the other |
| Text.StrLessTransitive | src/app/components/EmployeeTable.tsx:194-196 | string `<` is transitive |
| Text.IntToDecimal | src/app/components/EmployeeTable.tsx:97 | `toString()` of an integer is canonical text: digits with no leading zero, and a minus sign exactly for negative numbers (never "-0") |
| Text.CanonicalUnique | src/app/components/EmployeeTable.tsx:97 | a canonical text that reads back as n is exactly the text of n, so "canonical and parses to n" pins `toString()` down |
| Text.DecimalRoundTrip | src/app/components/EmployeeTable.tsx:97 | the decimal text that `toString()` gives an integer reads back as that integer |
| Text.DecimalInjective | src/app/components/EmployeeTable.tsx:97 | different salaries give different `salaryId` texts |
| EmployeeView.CompanyNameById | src/app/components/EmployeeTable.tsx:37-40 | the name of the first company with the id; `"Unknown"` when none has it |
| EmployeeView.DepartmentNameById | src/app/components/EmployeeTable.tsx:43-46 | the name of the first department with the id; `"Unknown"` when none has it |
| EmployeeView.SalaryAmountById | src/app/components/EmployeeTable.tsx:49-52 | `"$"` followed by canonical text that parses back to the first matching salary's amount, which is therefore exactly its `toString()`; `"Unknown"` when none matches |
| EmployeeView.LookupsFindEveryRow | src/app/components/EmployeeTable.tsx:37-52 | with unique ids, looking a row up by its own id finds that row |
| EmployeeView.FilterEmployees | src/app/components/EmployeeTable.tsx:180-186 | keeps an employee iff the lowercased term occurs in the lowercased name or department, as often as it occurs, as an order-preserving subsequence |
| EmployeeView.EmptySearchKeepsAll | src/app/components/EmployeeTable.tsx:180-186 | an empty search term keeps the whole list unchanged |
| EmployeeView.SearchIgnoresTermCase | src/app/components/EmployeeTable.tsx:183-184 | a term and its lowercased form give the same result |
| EmployeeView.Comparator | src/app/components/EmployeeTable.tsx:189-198 | the comparator returns only 1 or -1, never 0; ascending gives 1 iff a's field is greater, descending iff it is smaller |
| EmployeeView.NotAfterTransitive | src/app/components/EmployeeTable.tsx:189-198 | the relation "the comparator does not place a after b" is transitive, so the comparator induces a total preorder |
| EmployeeView.Insert | src/app/components/EmployeeTable.tsx:189-198 | one insertion step adds exactly the new element |
| EmployeeView.InsertSorted | src/app/components/EmployeeTable.tsx:189-198 | inserting into a sorted list keeps it sorted |
| EmployeeView.Sort | src/app/components/EmployeeTable.tsx:189-198 | the result is a permutation of the input, non-decreasing in the field when ascending and non-increasing when descending |
| EmployeeView.SortKeepsSorted | src/app/components/EmployeeTable.tsx:189-198 | sorting a list that is already sorted returns it unchanged |
| EmployeeView.SortIdempotent | src/app/components/EmployeeTable.tsx:189-198 | sorting twice is sorting once |
| EmployeeView.Displayed | src/app/components/EmployeeTable.tsx:180-198 | the rendered list holds exactly the employees the search hits, each as often as in the list, ordered on the sort field |
| EmployeeView.SortPair | src/app/components/EmployeeTable.tsx:189-198 | a two-element list is swapped exactly when the comparator places the first after the second |
| EmployeeView.TwoEmployeeExample | src/app/components/EmployeeTable.tsx:189-198 | Bob (500) and Ann (900): by name ascending Ann comes first; by salary ascending Bob does; by salary descending Ann does |
| EmployeeTable.Initial | src/app/components/EmployeeTable.tsx:18-32 | the screen starts with nothing loaded or shown, the empty form, not editing, no search term, and sorted by name ascending: the first click on name turns the order descending, the first click on salary sorts ascending |
| EmployeeTable.ToggleSort | src/app/components/EmployeeTable.tsx:170-174 | the field becomes the clicked one; the order is descending iff the clicked field was current and ascending |
| EmployeeTable.SecondClickFlips | src/app/components/EmployeeTable.tsx:170-174 | clicking the same field again always flips the direction; three clicks equal one |
| EmployeeTable.CreatePayload | src/app/components/EmployeeTable.tsx:90-98 | the payload copies the form values and sets a fresh id, `companyId := company` and `departmentId := department`, and a `salaryId` that is canonical text parsing back to the salary, so exactly the salary's `toString()` |
| EmployeeTable.UpdatePayload | src/app/components/EmployeeTable.tsx:124-133 | the update payload keeps the form's id and name, takes foreign keys from the selections and a `salaryId` that is canonical text parsing back to the salary (its `toString()`), and sets `department` to the form's name |
| EmployeeTable.HandleAdd | src/app/components/EmployeeTable.tsx:82-100 | rejected with the alert and no request iff name, company or department is empty or salary ≤ 0; otherwise exactly one create with the payload |
| EmployeeTable.HandleUpdate | src/app/components/EmployeeTable.tsx:118-136 | rejected iff the form id is empty; otherwise exactly one update scoped to the form id |
| EmployeeTable.Edit | src/app/components/EmployeeTable.tsx:157-160 | form := the row, edit mode on, list, search and sort untouched |
| EmployeeTable.Reset | src/app/components/EmployeeTable.tsx:326-338 | form := the empty record, edit mode off, nothing else changes |
| EmployeeTable.ClickSort | src/app/components/EmployeeTable.tsx:170-174 | only the sort state changes, by the toggle rule; list, form, edit flag and search term are kept |
| EmployeeTable.Search | src/app/components/EmployeeTable.tsx:176-178 | only the search term changes; list, form, edit flag and sort state are kept |
| EmployeeTable.Shown | src/app/components/EmployeeTable.tsx:384-386 | the cards shown are the search hits of the current list, ordered by the current sort |
| EmployeeTable.Submit | src/app/components/EmployeeTable.tsx:234-240 | an empty required field sends nothing; a sent request is the update handler's payload for the form id iff in edit mode, and otherwise the add handler's create payload with the fresh id; success replaces the list, empties the form and leaves edit mode; any failure changes nothing |
| EmployeeTable.DeleteRow | src/app/components/EmployeeTable.tsx:163-167 | one delete for the id; the list becomes the re-fetched one on success and is unchanged on failure |
| EmployeeTable.EditThenSubmitUpdates | src/app/components/EmployeeTable.tsx:156-160 | editing a row and submitting it sends one update for that row's id, never a create |
| EmployeeTable.ResetThenSubmitCreates | src/app/components/EmployeeTable.tsx:82-116 | after a reset, valid values send one create; a successful round trip installs the fetched list and empties the form |
| CompaniesPage.Renamed | src/app/companies/page.tsx:52-56 | length and ids kept; every entry with the edited id takes the new name; every other entry unchanged |
| CompaniesPage.Submit | src/app/companies/page.tsx:37-81 | an empty name sends nothing. Otherwise both messages start cleared. Editing sends a rename, else a create with the fresh id. A rename success patches the list and clears the input and target. A create success appends the server's record and clears the input. A failure keeps the list, input and target, and sets the branch's error |
| CompaniesPage.DeleteCompany | src/app/companies/page.tsx:84-92 | success removes every company with the id, keeps the rest in order and sets the success message; failure only sets the error |
| CompaniesPage.Edit | src/app/companies/page.tsx:95-98 | the input takes the company's name and the target its id; list and messages untouched |
| CompaniesPage.EditThenRename | src/app/companies/page.tsx:44-63 | editing a listed company and submitting renames exactly that id and keeps the list's ids in order |
| CompaniesPage.FailedRenameRetries | src/app/companies/page.tsx:59-63 | after a failed rename, submitting again sends the same request |
| CompaniesPage.EmptyTargetCreates | src/app/companies/page.tsx:44 | an edit target with the empty id is not an edit: the submit creates |
| CompaniesPage.CreateThenDelete | src/app/companies/page.tsx:66-91 | creating a company with a new id and deleting that id restores the list |
| CandidatesPage.Initial | src/app/candidates/page.tsx:53-62 | the screen starts with nothing loaded, no edit target, and the form at initial values that are six empty strings and the application date `now` |
| CandidatesPage.Submit | src/app/candidates/page.tsx:71-87 | sends a request iff the six required fields are non-empty; an update of the edited id iff editing, else a create. A failed write changes nothing. A successful write resets the form and target, and a successful re-fetch also replaces the list |
| CandidatesPage.Edit | src/app/candidates/page.tsx:91-102 | copies the seven form fields from the candidate (a missing date becomes now) and sets it as the target |
| CandidatesPage.DeleteCandidate | src/app/candidates/page.tsx:104-111 | success removes exactly the candidates with the id and keeps the rest in order; failure changes nothing |
| CandidatesPage.FailedSaveKeepsTarget | src/app/candidates/page.tsx:71-87 | a failed save of an edited candidate keeps the target, so re-submitting updates the same id |
| CandidatesPage.SavedThenCreates | src/app/candidates/page.tsx:78-81 | after a successful save the list is the fetched one and the next valid submit creates |
| DepartmentsPage.BeginSubmit | src/app/departments/page.tsx:69-70 | the flag goes up and nothing else on the screen changes |
| DepartmentsPage.FinishSubmit | src/app/departments/page.tsx:71-91 | an update of the edited id iff editing, else a create. The success message is set iff the write succeeded. The list and form are replaced and reset only after a successful re-fetch; any failure sets the error. The flag drops and the target clears in every case |
| DepartmentsPage.Submit | src/app/departments/page.tsx:60-93 | sends iff name and company are non-empty; then the flag is down and the target cleared whatever the outcome; a failed write keeps form and list |
| DepartmentsPage.SubmitIsBeginThenFinish | src/app/departments/page.tsx:69-91 | a valid submit is the flag-raising first statement followed by the rest of the handler, so the flag is up while the request is in flight and down at the end for every outcome |
| DepartmentsPage.Edit | src/app/departments/page.tsx:95-98 | the department becomes the target and the form holds its name and company |
| DepartmentsPage.DeleteDepartment | src/app/departments/page.tsx:100-109 | one delete; a failed delete only sets the error; a successful one sets the success message and, once re-fetched, replaces the list |
| DepartmentsPage.FailedUpdateThenCreates | src/app/departments/page.tsx:72-90 | after a failed update the target is gone while the form keeps the values, so re-submitting creates |

## Left out

- Network requests and the mount-time loads of every screen, including `EmployeeApiService`. Each request's outcome is an argument of the step that awaits it.
- Fresh ids are a parameter (`freshId`). The model of the employees service does not overwrite the create payload's id with a second random id before posting.
- EmployeeTable.DeleteRow: the effect that empties the form whenever the employee list is replaced is not modelled. After a delete, the real screen also clears the form, and the model leaves it.
- Formik and Yup internals. Each screen keeps only "required means non-empty". The candidate email-format rule, touched/error display state and `handleInputChange` are not modelled.
- React timing: async races, state updates after unmount, the `loading` flag, and the department submit button disabled while submitting. Each event is one atomic step.
- Case folding and string order: `toLowerCase` is modelled on ASCII letters only. Strings compare by Dafny characters, which differ from JavaScript's UTF-16 code units only outside the Basic Multilingual Plane.
- Salary is an integer, not a floating-point number. The salary selector storing a salary id in the numeric field is not modelled.
- CandidatesPage.Edit: the application date stays a string. Its conversion to a `Date` object is not modelled.
- EmployeeView.Sort: the comparator answers -1 even for an element compared with itself, so it is not a consistent comparator in the sense of the ECMA-262 definition of `Array.prototype.sort`, and the language leaves the whole resulting order implementation-defined, not only the order of ties. The model's sortedness is what insertion- and merge-based engines such as TimSort produce for this comparator; the order of employees with equal keys is the insertion sort's.
- Aliasing: `getEmployees` returns the stored array itself, and `push` mutates it in place. The store model has value semantics, so earlier readers never see later writes.
- A `Partial<T>` property explicitly set to `undefined` would override with `undefined`. The model treats it as absent.
- Console logging (the "not found" message of the store's update, and the error logs of the candidates screen's save and delete) is dropped: it changes no state.
- Presentation: the navigation bar, home page, layout, footer, and all styling.

=== FILE: candidates_page.dfy ===
/**
 The candidates screen: the candidate list, the company list for the selector,
 the candidate being edited and the form values. A save is a write followed by
 a re-fetch: the form is reset and the edit target dropped right after the
 write succeeds, and the list is replaced once the re-fetch returns. A failed
 write skips all of that, so the edit target survives a failed save.
 */
module CandidatesPage {
  import opened Common
  import Seqs
  import DatabaseService

  /** The candidate record this screen reads and writes. */
  datatype Candidate = Candidate(
    id: string,
    firstName: string,
    lastName: string,
    email: string,
    phone: string,
    position: string,
    companyId: string,
    appliedAt: string)

  datatype Values = Values(
    firstName: string,
    lastName: string,
    email: string,
    phone: string,
    position: string,
    appliedAt: string,
    companyId: string)

  datatype Screen = Screen(
    candidates: seq<Candidate>,
    companies: seq<DatabaseService.Company>,
    editing: Option<Candidate>,
    values: Values,
    initialValues: Values)

  datatype Request = Put(id: string, values: Values) | Post(values: Values) | Delete(id: string)

  function CandidateWithoutId(id: string): Candidate -> bool {
    (c: Candidate) => c.id != id
  }

  /** The form's initial values; `appliedAt` is the time the screen was set up. */
  function InitialValues(now: string): Values {
    Values("", "", "", "", "", now, "")
  }

  /** The screen as first shown: nothing loaded, nothing edited. */
  function Initial(now: string): (s: Screen)
    ensures s.values == s.initialValues && s.editing.None?
    ensures s.initialValues == Values("", "", "", "", "", now, "")
    ensures s.candidates == [] && s.companies == []
  {
    Screen([], [], None, InitialValues(now), InitialValues(now))
  }

  /** The form schema: all fields but the application date are required. */
  predicate SchemaAccepts(v: Values) {
    v.firstName != "" && v.lastName != "" && v.email != "" && v.phone != ""
    && v.position != "" && v.companyId != ""
  }

  /** `onSubmit`: update the edited candidate, or create one; never both. */
  function Submit(s: Screen, outcome: Refresh<Candidate>): (r: Step<Screen, Request>)
    ensures r.sent.Some? <==>
              && s.values.firstName != "" && s.values.lastName != "" && s.values.email != ""
              && s.values.phone != "" && s.values.position != "" && s.values.companyId != ""
    ensures r.sent.None? ==> r.screen == s
    ensures r.sent.Some? ==> (r.sent.value.Put? <==> s.editing.Some?) && !r.sent.value.Delete?
    ensures r.sent.Some? && s.editing.Some? ==> r.sent == Some(Put(s.editing.value.id, s.values))
    ensures r.sent.Some? && s.editing.None? ==> r.sent == Some(Post(s.values))
    ensures r.sent.Some? && outcome.WriteFailed? ==> r.screen == s
    ensures r.sent.Some? && outcome.RefetchFailed? ==>
              r.screen == s.(values := s.initialValues, editing := None)
    ensures r.sent.Some? && outcome.Refreshed? ==>
              r.screen == s.(values := s.initialValues, editing := None, candidates := outcome.list)
    ensures r.screen.companies == s.companies && r.screen.initialValues == s.initialValues
  {
    if !SchemaAccepts(s.values) then Step(s, None)
    else
      var request := if s.editing.Some? then Put(s.editing.value.id, s.values) else Post(s.values);
      match outcome
      case WriteFailed => Step(s, Some(request))
      case RefetchFailed => Step(s.(values := s.initialValues, editing := None), Some(request))
      case Refreshed(list) =>
        Step(s.(values := s.initialValues, editing := None, candidates := list), Some(request))
  }

  /** `handleEdit`: copy the candidate's fields into the form and make it the
      edit target. A missing application date becomes the current time. */
  function Edit(s: Screen, c: Candidate, now: string): (r: Screen)
    ensures r.values.firstName == c.firstName && r.values.lastName == c.lastName
    ensures r.values.email == c.email && r.values.phone == c.phone
    ensures r.values.position == c.position && r.values.companyId == c.companyId
    ensures r.values.appliedAt == if c.appliedAt == "" then now else c.appliedAt
    ensures r.editing == Some(c)
    ensures r.candidates == s.candidates && r.companies == s.companies
    ensures r.initialValues == s.initialValues
  {
    var appliedAt := if c.appliedAt != "" then c.appliedAt else now;
    s.(values := Values(c.firstName, c.lastName, c.email, c.phone, c.position, appliedAt, c.companyId),
       editing := Some(c))
  }

  /** `handleDelete`: on success exactly the candidates carrying `id` leave the
      list, the rest keep their order; on failure nothing changes. */
  function DeleteCandidate(s: Screen, id: string, reply: Reply<()>): (r: Step<Screen, Request>)
    ensures r.sent == Some(Delete(id))
    ensures reply.Ok? ==>
              && (forall i :: 0 <= i < |r.screen.candidates| ==> r.screen.candidates[i].id != id)
              && (forall c :: multiset(r.screen.candidates)[c] ==
                    if c.id == id then 0 else multiset(s.candidates)[c])
              && Seqs.IsSubsequence(r.screen.candidates, s.candidates)
              && r.screen == s.(candidates := r.screen.candidates)
    ensures reply.Failed? ==> r.screen == s
  {
    match reply
    case Ok(_) =>
      Seqs.FilterIsSubsequence(s.candidates, CandidateWithoutId(id));
      Step(s.(candidates := Seqs.Filter(s.candidates, CandidateWithoutId(id))), Some(Delete(id)))
    case Failed => Step(s, Some(Delete(id)))
  }

  /** After editing a candidate, a save whose write fails keeps the edit target,
      so submitting again sends the same update once more. */
  lemma FailedSaveKeepsTarget(s: Screen, c: Candidate, now: string, outcome: Refresh<Candidate>)
    requires SchemaAccepts(Edit(s, c, now).values)
    ensures var failed := Submit(Edit(s, c, now), WriteFailed).screen;
      && failed.editing == Some(c)
      && Submit(failed, outcome).sent == Some(Put(c.id, Edit(s, c, now).values))
  {
  }

  /** A successful save leaves the screen ready for a new candidate: once the
      user fills in valid values, the next submit creates rather than updates. */
  lemma SavedThenCreates(s: Screen, list: seq<Candidate>, typed: Values, outcome: Refresh<Candidate>)
    requires SchemaAccepts(s.values) && SchemaAccepts(typed)
    ensures var saved := Submit(s, Refreshed(list)).screen;
      && saved.candidates == list
      && Submit(saved.(values := typed), outcome).sent == Some(Post(typed))
  {
  }
}

=== FILE: common.dfy ===
/**
 Small datatypes shared by the store and the screens: optional values, and the
 outcomes of the asynchronous requests a screen awaits. No request is performed
 by the model; the outcome of each one is an input of the transition that awaits it.
 */
module Common {

  /** An optional value: a missing object property, or a nullable state cell. */
  datatype Option<+T> = None | Some(value: T)

  /** Outcome of one awaited request (a create, an update or a delete). */
  datatype Reply<+T> = Ok(value: T) | Failed

  /** Outcome of a write followed by a re-fetch of the whole list. The write can
      fail; or succeed and have the re-fetch fail; or both can succeed. */
  datatype Refresh<+T> = WriteFailed | RefetchFailed | Refreshed(list: seq<T>)

  /** What a screen event leaves behind: the next screen state and the request
      it issued, if any. */
  datatype Step<+S, +R> = Step(screen: S, sent: Option<R>)
}

=== FILE: companies_page.dfy ===
/**
 The companies screen: a name input, the company list, a success and an error
 message, and the id of the company being edited. This screen patches its list
 locally after each successful request instead of re-fetching it: it renames
 on update, appends the server's record on create and filters on delete.
 */
module CompaniesPage {
  import opened Common
  import Seqs
  import opened DatabaseService

  datatype Screen = Screen(
    companyName: string,
    companies: seq<Company>,
    errorMessage: string,
    successMessage: string,
    editing: Option<string>)

  datatype Request = Put(id: string, name: string) | Post(id: string, name: string) | Delete(id: string)

  const UpdateError := "Error updating the company"
  const CreateError := "An error occurred"
  const DeleteError := "Failed to delete company"
  const DeleteSuccess := "Company deleted successfully!"

  function UpdatedMessage(name: string): string {
    "Company \"" + name + "\" updated successfully!"
  }

  function CreatedMessage(name: string): string {
    "Company \"" + name + "\" created successfully!"
  }

  /** The branch test `if (editingCompany)`: a null target and an empty id
      both count as not editing. */
  predicate IsEditing(s: Screen) {
    s.editing.Some? && s.editing.value != ""
  }

  /** The list update after a successful rename: every company carrying `id`
      takes the new name; everything else stays. */
  function Renamed(companies: seq<Company>, id: string, name: string): (r: seq<Company>)
    ensures |r| == |companies|
    ensures forall i :: 0 <= i < |r| ==> r[i].id == companies[i].id
    ensures forall i :: 0 <= i < |r| ==> companies[i].id == id ==> r[i].name == name
    ensures forall i :: 0 <= i < |r| ==> companies[i].id != id ==> r[i] == companies[i]
  {
    seq(|companies|, i requires 0 <= i < |companies| =>
      if companies[i].id == id then companies[i].(name := name) else companies[i])
  }

  /** `handleSubmit`. The input is marked required, so the browser does not
      submit an empty name. Otherwise both messages are cleared, then a rename
      of the edited company or a create with a fresh id is sent. */
  function Submit(s: Screen, freshId: string, reply: Reply<Company>): (r: Step<Screen, Request>)
    ensures s.companyName == "" ==> r == Step(s, None)
    ensures s.companyName != "" ==> r.sent.Some?
    ensures r.sent.Some? && IsEditing(s) ==> r.sent == Some(Put(s.editing.value, s.companyName))
    ensures r.sent.Some? && !IsEditing(s) ==> r.sent == Some(Post(freshId, s.companyName))
    // update succeeded
    ensures r.sent.Some? && IsEditing(s) && reply.Ok? ==>
              && r.screen.companies == Renamed(s.companies, s.editing.value, reply.value.name)
              && r.screen.companyName == "" && r.screen.editing == None
              && r.screen.errorMessage == "" && r.screen.successMessage == UpdatedMessage(reply.value.name)
    // create succeeded
    ensures r.sent.Some? && !IsEditing(s) && reply.Ok? ==>
              && r.screen.companies == s.companies + [reply.value]
              && r.screen.companyName == "" && r.screen.editing == s.editing
              && r.screen.errorMessage == "" && r.screen.successMessage == CreatedMessage(reply.value.name)
    // either failed
    ensures r.sent.Some? && reply.Failed? ==>
              && r.screen.companies == s.companies
              && r.screen.companyName == s.companyName && r.screen.editing == s.editing
              && r.screen.successMessage == ""
              && r.screen.errorMessage == (if IsEditing(s) then UpdateError else CreateError)
  {
    if s.companyName == "" then Step(s, None)
    else
      var cleared := s.(errorMessage := "", successMessage := "");
      if IsEditing(s) then
        var id := s.editing.value;
        match reply
        case Ok(response) =>
          Step(cleared.(companies := Renamed(s.companies, id, response.name),
                        successMessage := UpdatedMessage(response.name),
                        companyName := "", editing := None),
               Some(Put(id, s.companyName)))
        case Failed => Step(cleared.(errorMessage := UpdateError), Some(Put(id, s.companyName)))
      else
        match reply
        case Ok(response) =>
          Step(cleared.(companies := s.companies + [response],
                        successMessage := CreatedMessage(response.name),
                        companyName := ""),
               Some(Post(freshId, s.companyName)))
        case Failed => Step(cleared.(errorMessage := CreateError), Some(Post(freshId, s.companyName)))
  }

  /** `handleDelete`: on success every company carrying `id` leaves the list; on
      failure the list stays. Neither message is cleared first. */
  function DeleteCompany(s: Screen, id: string, reply: Reply<()>): (r: Step<Screen, Request>)
    ensures r.sent == Some(Delete(id))
    ensures r.screen.companyName == s.companyName && r.screen.editing == s.editing
    ensures reply.Ok? ==>
              && (forall i :: 0 <= i < |r.screen.companies| ==> r.screen.companies[i].id != id)
              && (forall c :: multiset(r.screen.companies)[c] ==
                    if c.id == id then 0 else multiset(s.companies)[c])
              && Seqs.IsSubsequence(r.screen.companies, s.companies)
              && r.screen.successMessage == DeleteSuccess && r.screen.errorMessage == s.errorMessage
    ensures reply.Failed? ==>
              r.screen == s.(errorMessage := DeleteError)
  {
    match reply
    case Ok(_) =>
      Seqs.FilterIsSubsequence(s.companies, CompanyWithoutId(id));
      Step(s.(companies := Seqs.Filter(s.companies, CompanyWithoutId(id)), successMessage := DeleteSuccess),
           Some(Delete(id)))
    case Failed => Step(s.(errorMessage := DeleteError), Some(Delete(id)))
  }

  /** `handleEdit`: the company's name goes into the input and its id becomes
      the edit target; the list is untouched. */
  function Edit(s: Screen, company: Company): (r: Screen)
    ensures r.companyName == company.name && r.editing == Some(company.id)
    ensures r.companies == s.companies
    ensures r.errorMessage == s.errorMessage && r.successMessage == s.successMessage
  {
    s.(companyName := company.name, editing := Some(company.id))
  }

  /** Editing a listed company and submitting sends a rename for that id; once
      the server answers, every row with that id shows the answered name and
      the ids of the list, in order, are those before. */
  lemma EditThenRename(s: Screen, i: int, freshId: string, response: Company)
    requires 0 <= i < |s.companies|
    requires s.companies[i].id != "" && s.companies[i].name != ""
    ensures var r := Submit(Edit(s, s.companies[i]), freshId, Ok(response));
      && r.sent == Some(Put(s.companies[i].id, s.companies[i].name))
      && r.screen.companies[i].name == response.name
      && |r.screen.companies| == |s.companies|
      && (forall j :: 0 <= j < |s.companies| ==> r.screen.companies[j].id == s.companies[j].id)
      && r.screen.editing == None
  {
  }

  /** A failed rename keeps the edit target and the input, so submitting again
      retries the same request. */
  lemma FailedRenameRetries(s: Screen, freshId: string, freshId': string, reply: Reply<Company>)
    requires IsEditing(s) && s.companyName != ""
    ensures var r := Submit(s, freshId, Failed);
      Submit(r.screen, freshId', reply).sent == r.sent
  {
  }

  /** An empty edit target is not an edit: submitting creates a new company
      instead of renaming the one carrying the empty id. */
  lemma EmptyTargetCreates(s: Screen, freshId: string, reply: Reply<Company>)
    requires s.editing == Some("") && s.companyName != ""
    ensures Submit(s, freshId, reply).sent == Some(Post(freshId, s.companyName))
  {
  }

  /** A created company that the server answers with a new id disappears again
      when that id is deleted, leaving the list as before. */
  lemma CreateThenDelete(s: Screen, freshId: string, response: Company)
    requires !IsEditing(s) && s.companyName != ""
    requires forall i :: 0 <= i < |s.companies| ==> s.companies[i].id != response.id
    ensures var created := Submit(s, freshId, Ok(response)).screen;
      DeleteCompany(created, response.id, Ok(())).screen.companies == s.companies
  {
    var keep := CompanyWithoutId(response.id);
    forall i | 0 <= i < |s.companies|
      ensures keep(s.companies[i])
    {
    }
    Seqs.FilterKeepsAll(s.companies, keep);
    assert Seqs.Filter([response], keep) == [] by {
      assert !keep(response);
      assert [response][1..] == [];
    }
    Seqs.FilterAppend(s.companies, [response], keep);
  }
}

=== FILE: database_service.dfy ===
/**
 The in-memory keyed store: an employee list and a candidate list, each keyed
 by a string `id` that nothing forces to be unique. Records are appended,
 merged into at the first index carrying an id, and deleted by id (every entry
 carrying it). The store is a value; each operation returns the next one.
 */
module DatabaseService {
  import opened Common
  import Seqs

  datatype Employee = Employee(
    id: string,
    name: string,
    company: string,
    department: string,
    salary: int,
    departmentId: string,
    companyId: string,
    salaryId: string)

  datatype Department = Department(id: string, name: string)

  datatype Salary = Salary(id: string, amount: int)

  datatype Company = Company(id: string, name: string)

  datatype Candidate = Candidate(id: string, name: string, appliedPosition: string, status: string)

  function EmployeeWithId(id: string): Employee -> bool {
    (e: Employee) => e.id == id
  }

  function EmployeeWithoutId(id: string): Employee -> bool {
    (e: Employee) => e.id != id
  }

  function CandidateWithId(id: string): Candidate -> bool {
    (c: Candidate) => c.id == id
  }

  function CandidateWithoutId(id: string): Candidate -> bool {
    (c: Candidate) => c.id != id
  }

  function CompanyWithId(id: string): Company -> bool {
    (c: Company) => c.id == id
  }

  function CompanyWithoutId(id: string): Company -> bool {
    (c: Company) => c.id != id
  }

  function DepartmentWithId(id: string): Department -> bool {
    (d: Department) => d.id == id
  }

  function SalaryWithId(id: string): Salary -> bool {
    (s: Salary) => s.id == id
  }

  /** `Partial<Employee>`: the properties a caller supplies; `None` is an absent one. */
  datatype EmployeePatch = EmployeePatch(
    id: Option<string>,
    name: Option<string>,
    company: Option<string>,
    department: Option<string>,
    salary: Option<int>,
    departmentId: Option<string>,
    companyId: Option<string>,
    salaryId: Option<string>)

  /** `Partial<Candidate>`. */
  datatype CandidatePatch = CandidatePatch(
    id: Option<string>,
    name: Option<string>,
    appliedPosition: Option<string>,
    status: Option<string>)

  const NoEmployeeChange := EmployeePatch(None, None, None, None, None, None, None, None)
  const NoCandidateChange := CandidatePatch(None, None, None, None)

  /** One property of an object spread: a supplied value wins over the old one. */
  function Override<T>(current: T, given: Option<T>): T {
    match given
    case Some(v) => v
    case None => current
  }

  /** `{ ...e, ...p }`. */
  function MergeEmployee(e: Employee, p: EmployeePatch): (r: Employee)
    ensures r.id == (if p.id.Some? then p.id.value else e.id)
    ensures r.name == (if p.name.Some? then p.name.value else e.name)
    ensures r.company == (if p.company.Some? then p.company.value else e.company)
    ensures r.department == (if p.department.Some? then p.department.value else e.department)
    ensures r.salary == (if p.salary.Some? then p.salary.value else e.salary)
    ensures r.departmentId == (if p.departmentId.Some? then p.departmentId.value else e.departmentId)
    ensures r.companyId == (if p.companyId.Some? then p.companyId.value else e.companyId)
    ensures r.salaryId == (if p.salaryId.Some? then p.salaryId.value else e.salaryId)
  {
    Employee(
      Override(e.id, p.id), Override(e.name, p.name), Override(e.company, p.company),
      Override(e.department, p.department), Override(e.salary, p.salary),
      Override(e.departmentId, p.departmentId), Override(e.companyId, p.companyId),
      Override(e.salaryId, p.salaryId))
  }

  /** `{ ...c, ...p }`. */
  function MergeCandidate(c: Candidate, p: CandidatePatch): (r: Candidate)
    ensures r.id == (if p.id.Some? then p.id.value else c.id)
    ensures r.name == (if p.name.Some? then p.name.value else c.name)
    ensures r.appliedPosition == (if p.appliedPosition.Some? then p.appliedPosition.value else c.appliedPosition)
    ensures r.status == (if p.status.Some? then p.status.value else c.status)
  {
    Candidate(
      Override(c.id, p.id), Override(c.name, p.name),
      Override(c.appliedPosition, p.appliedPosition), Override(c.status, p.status))
  }

  /** `{ ...p, ...q }`: the patch that applies `p` and then `q`. */
  function ThenEmployee(p: EmployeePatch, q: EmployeePatch): EmployeePatch {
    EmployeePatch(
      if q.id.Some? then q.id else p.id,
      if q.name.Some? then q.name else p.name,
      if q.company.Some? then q.company else p.company,
      if q.department.Some? then q.department else p.department,
      if q.salary.Some? then q.salary else p.salary,
      if q.departmentId.Some? then q.departmentId else p.departmentId,
      if q.companyId.Some? then q.companyId else p.companyId,
      if q.salaryId.Some? then q.salaryId else p.salaryId)
  }

  /** The patch that supplies every property of `e`. */
  function AsEmployeePatch(e: Employee): EmployeePatch {
    EmployeePatch(
      Some(e.id), Some(e.name), Some(e.company), Some(e.department), Some(e.salary),
      Some(e.departmentId), Some(e.companyId), Some(e.salaryId))
  }

  /** The laws of object spread that the merge obeys: an empty patch changes
      nothing, a complete patch
      replaces everything, re-applying a patch changes nothing more, and two
      merges in a row are one merge with the combined patch. */
  lemma MergeEmployeeLaws(e: Employee, p: EmployeePatch, q: EmployeePatch)
    ensures MergeEmployee(e, NoEmployeeChange) == e
    ensures forall x: Employee :: MergeEmployee(x, AsEmployeePatch(e)) == e
    ensures MergeEmployee(MergeEmployee(e, p), p) == MergeEmployee(e, p)
    ensures MergeEmployee(MergeEmployee(e, p), q) == MergeEmployee(e, ThenEmployee(p, q))
  {
  }

  /** The candidate merge: an empty patch changes nothing, and re-applying a
      patch changes nothing more. */
  lemma MergeCandidateLaws(c: Candidate, p: CandidatePatch)
    ensures MergeCandidate(c, NoCandidateChange) == c
    ensures MergeCandidate(MergeCandidate(c, p), p) == MergeCandidate(c, p)
  {
  }

  datatype Store = Store(employees: seq<Employee>, candidates: seq<Candidate>)

  function GetEmployees(s: Store): seq<Employee> {
    s.employees
  }

  function GetCandidates(s: Store): seq<Candidate> {
    s.candidates
  }

  /** `addEmployee` pushes the record at the end of the list. */
  function AddEmployee(s: Store, e: Employee): (r: Store)
    ensures |GetEmployees(r)| == |GetEmployees(s)| + 1
    ensures GetEmployees(r)[..|GetEmployees(s)|] == GetEmployees(s)
    ensures GetEmployees(r)[|GetEmployees(s)|] == e
    ensures GetCandidates(r) == GetCandidates(s)
  {
    s.(employees := s.employees + [e])
  }

  /** `updateEmployee` merges `patch` into the first employee carrying `id`;
      it returns the (new) stored list, which is the old one when no employee
      carries `id`. Later employees with the same id are left alone. */
  function UpdateEmployee(s: Store, id: string, patch: EmployeePatch): (r: (Store, seq<Employee>))
    ensures r.1 == GetEmployees(r.0)
    ensures GetCandidates(r.0) == GetCandidates(s)
    ensures |r.1| == |GetEmployees(s)|
    ensures Seqs.NoneMatch(GetEmployees(s), EmployeeWithId(id)) ==> r.0 == s
    ensures forall k :: Seqs.IsFirst(GetEmployees(s), EmployeeWithId(id), k) ==>
              && r.1[k] == MergeEmployee(GetEmployees(s)[k], patch)
              && forall j :: 0 <= j < |r.1| && j != k ==> r.1[j] == GetEmployees(s)[j]
  {
    var k := Seqs.FindIndex(s.employees, EmployeeWithId(id));
    if k == -1 then
      (s, s.employees)
    else
      var list := Seqs.UpdateFirst(s.employees, EmployeeWithId(id), e => MergeEmployee(e, patch));
      (s.(employees := list), list)
  }

  /** `deleteEmployee` drops every employee carrying `id` and keeps the rest,
      each as often as before. */
  function DeleteEmployee(s: Store, id: string): (r: Store)
    ensures forall i :: 0 <= i < |GetEmployees(r)| ==> GetEmployees(r)[i].id != id
    ensures forall e :: multiset(GetEmployees(r))[e] ==
              if e.id == id then 0 else multiset(GetEmployees(s))[e]
    ensures GetCandidates(r) == GetCandidates(s)
  {
    s.(employees := Seqs.Filter(s.employees, EmployeeWithoutId(id)))
  }

  /** `addCandidate` pushes the record at the end of the list. */
  function AddCandidate(s: Store, c: Candidate): (r: Store)
    ensures |GetCandidates(r)| == |GetCandidates(s)| + 1
    ensures GetCandidates(r)[..|GetCandidates(s)|] == GetCandidates(s)
    ensures GetCandidates(r)[|GetCandidates(s)|] == c
    ensures GetEmployees(r) == GetEmployees(s)
  {
    s.(candidates := s.candidates + [c])
  }

  /** `updateCandidate` merges into the first candidate carrying `id`, if any. */
  function UpdateCandidate(s: Store, id: string, patch: CandidatePatch): (r: Store)
    ensures GetEmployees(r) == GetEmployees(s)
    ensures |GetCandidates(r)| == |GetCandidates(s)|
    ensures Seqs.NoneMatch(GetCandidates(s), CandidateWithId(id)) ==> r == s
    ensures forall k :: Seqs.IsFirst(GetCandidates(s), CandidateWithId(id), k) ==>
              && GetCandidates(r)[k] == MergeCandidate(GetCandidates(s)[k], patch)
              && forall j :: 0 <= j < |GetCandidates(r)| && j != k ==> GetCandidates(r)[j] == GetCandidates(s)[j]
  {
    s.(candidates := Seqs.UpdateFirst(s.candidates, CandidateWithId(id), c => MergeCandidate(c, patch)))
  }

  /** `deleteCandidate` drops every candidate carrying `id`. */
  function DeleteCandidate(s: Store, id: string): (r: Store)
    ensures forall i :: 0 <= i < |GetCandidates(r)| ==> GetCandidates(r)[i].id != id
    ensures forall c :: multiset(GetCandidates(r))[c] ==
              if c.id == id then 0 else multiset(GetCandidates(s))[c]
    ensures GetEmployees(r) == GetEmployees(s)
  {
    s.(candidates := Seqs.Filter(s.candidates, CandidateWithoutId(id)))
  }

  /** Deleting keeps the survivors in their original relative order, and a
      second delete of the same id changes nothing. */
  lemma DeleteEmployeeOrderAndIdempotence(s: Store, id: string)
    ensures Seqs.IsSubsequence(GetEmployees(DeleteEmployee(s, id)), GetEmployees(s))
    ensures DeleteEmployee(DeleteEmployee(s, id), id) == DeleteEmployee(s, id)
  {
    Seqs.FilterIsSubsequence(s.employees, EmployeeWithoutId(id));
    Seqs.FilterIdempotent(s.employees, EmployeeWithoutId(id));
  }

  lemma DeleteCandidateOrderAndIdempotence(s: Store, id: string)
    ensures Seqs.IsSubsequence(GetCandidates(DeleteCandidate(s, id)), GetCandidates(s))
    ensures DeleteCandidate(DeleteCandidate(s, id), id) == DeleteCandidate(s, id)
  {
    Seqs.FilterIsSubsequence(s.candidates, CandidateWithoutId(id));
    Seqs.FilterIdempotent(s.candidates, CandidateWithoutId(id));
  }

  /** Adding an employee under an id nobody carries and then deleting that id
      gives back the store we started from. */
  lemma AddThenDeleteEmployee(s: Store, e: Employee)
    requires forall i :: 0 <= i < |GetEmployees(s)| ==> GetEmployees(s)[i].id != e.id
    ensures DeleteEmployee(AddEmployee(s, e), e.id) == s
  {
    var keep := EmployeeWithoutId(e.id);
    forall i | 0 <= i < |s.employees|
      ensures keep(s.employees[i])
    {
      assert GetEmployees(s)[i].id != e.id;
    }
    Seqs.FilterKeepsAll(s.employees, keep);
    assert Seqs.Filter([e], keep) == [] by {
      assert !keep(e);
      assert [e][1..] == [];
    }
    Seqs.FilterAppend(s.employees, [e], keep);
    assert AddEmployee(s, e).employees == s.employees + [e];
  }

  /** Updating with the empty patch changes nothing, whether or not the id is present. */
  lemma UpdateEmployeeEmptyPatch(s: Store, id: string)
    ensures UpdateEmployee(s, id, NoEmployeeChange).0 == s
  {
    var k := Seqs.FindIndex(s.employees, EmployeeWithId(id));
    if k != -1 {
      var r := UpdateEmployee(s, id, NoEmployeeChange).1;
      assert forall j :: 0 <= j < |r| ==> r[j] == s.employees[j];
    }
  }

  /** A patch that leaves `id` alone keeps the updated employee the first one
      carrying `id`, so a second update with the same id reaches the same record. */
  lemma UpdateEmployeeKeepsTarget(s: Store, id: string, patch: EmployeePatch, k: int)
    requires patch.id.None? || patch.id == Some(id)
    requires Seqs.IsFirst(GetEmployees(s), EmployeeWithId(id), k)
    ensures Seqs.IsFirst(GetEmployees(UpdateEmployee(s, id, patch).0), EmployeeWithId(id), k)
  {
  }
}

=== FILE: departments_page.dfy ===
/**
 The departments screen: the company and department lists, a submitting flag,
 a success and an error message, the department being edited and the form
 values. A save is a write followed by a re-fetch. The success message is set
 as soon as the write succeeds; the list is replaced and the form reset once
 the re-fetch returns. Whatever happens, the submitting flag drops and the edit
 target is cleared at the end, so a failed save loses the edit target.
 */
module DepartmentsPage {
  import opened Common
  import DatabaseService

  /** The department record this screen reads and writes. */
  datatype Department = Department(id: string, name: string, companyId: string)

  datatype Values = Values(name: string, companyId: string)

  datatype Screen = Screen(
    companies: seq<DatabaseService.Company>,
    departments: seq<Department>,
    isSubmitting: bool,
    errorMessage: string,
    successMessage: string,
    editing: Option<Department>,
    values: Values)

  datatype Request = Put(id: string, values: Values) | Post(values: Values) | Delete(id: string)

  const EmptyValues := Values("", "")

  const SaveError := "Error processing the department."
  const DeleteError := "Error deleting department"
  const UpdatedMessage := "Department updated successfully!"
  const AddedMessage := "Department added successfully!"
  const DeletedMessage := "Department deleted successfully!"

  /** The form schema: name and company are required. */
  predicate SchemaAccepts(v: Values) {
    v.name != "" && v.companyId != ""
  }

  /** The first statement of `onSubmit`. */
  function BeginSubmit(s: Screen): (r: Screen)
    ensures r.isSubmitting
    ensures r.(isSubmitting := s.isSubmitting) == s
  {
    s.(isSubmitting := true)
  }

  /** The rest of `onSubmit`: the write, the messages, the re-fetch, and the
      `finally` block that drops the flag and the edit target. */
  function FinishSubmit(s: Screen, outcome: Refresh<Department>): (r: Step<Screen, Request>)
    ensures !r.screen.isSubmitting && r.screen.editing == None
    ensures r.sent == Some(if s.editing.Some? then Put(s.editing.value.id, s.values) else Post(s.values))
    ensures outcome.WriteFailed? ==>
              r.screen == s.(errorMessage := SaveError, isSubmitting := false, editing := None)
    ensures !outcome.WriteFailed? ==>
              r.screen.successMessage == (if s.editing.Some? then UpdatedMessage else AddedMessage)
    ensures outcome.RefetchFailed? ==>
              && r.screen.errorMessage == SaveError
              && r.screen.departments == s.departments && r.screen.values == s.values
    ensures outcome.Refreshed? ==>
              && r.screen.departments == outcome.list && r.screen.values == EmptyValues
              && r.screen.errorMessage == s.errorMessage
    ensures r.screen.companies == s.companies
  {
    var request := if s.editing.Some? then Put(s.editing.value.id, s.values) else Post(s.values);
    var message := if s.editing.Some? then UpdatedMessage else AddedMessage;
    var settled := match outcome
      case WriteFailed => s.(errorMessage := SaveError)
      case RefetchFailed => s.(successMessage := message, errorMessage := SaveError)
      case Refreshed(list) => s.(successMessage := message, departments := list, values := EmptyValues);
    Step(settled.(isSubmitting := false, editing := None), Some(request))
  }

  /** `onSubmit` as a whole, run only when the schema accepts the values. */
  function Submit(s: Screen, outcome: Refresh<Department>): (r: Step<Screen, Request>)
    ensures r.sent.Some? <==> s.values.name != "" && s.values.companyId != ""
    ensures r.sent.None? ==> r.screen == s
    ensures r.sent.Some? ==> !r.screen.isSubmitting && r.screen.editing == None
    ensures r.sent.Some? ==> (r.sent.value.Put? <==> s.editing.Some?) && !r.sent.value.Delete?
    ensures r.sent.Some? && s.editing.Some? ==> r.sent.value.id == s.editing.value.id
    ensures r.sent.Some? && outcome.WriteFailed? ==> r.screen.values == s.values && r.screen.departments == s.departments
  {
    if !SchemaAccepts(s.values) then Step(s, None) else FinishSubmit(BeginSubmit(s), outcome)
  }

  /** `handleEdit`: the department becomes the edit target and its name and
      company go into the form. */
  function Edit(s: Screen, d: Department): (r: Screen)
    ensures r.editing == Some(d) && r.values == Values(d.name, d.companyId)
    ensures r.departments == s.departments && r.companies == s.companies
    ensures r.errorMessage == s.errorMessage && r.successMessage == s.successMessage
    ensures r.isSubmitting == s.isSubmitting
  {
    s.(editing := Some(d), values := Values(d.name, d.companyId))
  }

  /** `handleDelete`: a delete, then a re-fetch. The success message is set as
      soon as the delete succeeds; the list is replaced only by a re-fetched one. */
  function DeleteDepartment(s: Screen, id: string, outcome: Refresh<Department>): (r: Step<Screen, Request>)
    ensures r.sent == Some(Delete(id))
    ensures outcome.WriteFailed? ==> r.screen == s.(errorMessage := DeleteError)
    ensures outcome.RefetchFailed? ==>
              r.screen == s.(successMessage := DeletedMessage, errorMessage := DeleteError)
    ensures outcome.Refreshed? ==>
              r.screen == s.(successMessage := DeletedMessage, departments := outcome.list)
  {
    match outcome
    case WriteFailed => Step(s.(errorMessage := DeleteError), Some(Delete(id)))
    case RefetchFailed => Step(s.(successMessage := DeletedMessage, errorMessage := DeleteError), Some(Delete(id)))
    case Refreshed(list) => Step(s.(successMessage := DeletedMessage, departments := list), Some(Delete(id)))
  }

  /** A valid submit is the flag-raising first statement followed by the rest
      of the handler, so the flag is up while the request is in flight and, by
      `FinishSubmit`, down at the end whatever the outcome. */
  lemma SubmitIsBeginThenFinish(s: Screen, outcome: Refresh<Department>)
    requires SchemaAccepts(s.values)
    ensures Submit(s, outcome) == FinishSubmit(BeginSubmit(s), outcome)
  {
  }

  /** Unlike the candidates screen, a failed update loses its target: the form
      still holds the edited values, but submitting them again creates a new
      department instead of updating the old one. */
  lemma FailedUpdateThenCreates(s: Screen, d: Department, outcome: Refresh<Department>)
    requires d.name != "" && d.companyId != ""
    ensures var failed := Submit(Edit(s, d), WriteFailed).screen;
      && failed.values == Values(d.name, d.companyId)
      && failed.editing == None
      && Submit(failed, outcome).sent == Some(Post(Values(d.name, d.companyId)))
  {
  }
}

=== FILE: employee_table.dfy ===
/**
 The employee screen as a state machine: the loaded list, the form record, the
 edit flag, the search term and the sort state. Its events are editing a row,
 resetting the form, clicking a sort button, typing a search term, submitting
 the form and deleting a row. Submitting validates, builds a create or an
 update payload, and — once the write and the re-fetch both succeed — replaces
 the list and clears the form.
 */
module EmployeeTable {
  import opened Common
  import Text
  import opened DatabaseService
  import opened EmployeeView

  /** The record the form starts from and is reset to. */
  const EmptyForm := Employee("", "", "", "", 0, "", "", "")

  datatype SortState = SortState(field: SortField, order: SortOrder)

  /** Sorting starts by name, ascending. */
  const InitialSort := SortState(ByName, Asc)

  datatype TableState = TableState(
    employees: seq<Employee>,
    form: Employee,
    isEdit: bool,
    searchTerm: string,
    sort: SortState)

  /** The screen as first rendered: nothing loaded, the empty form, not
      editing, no search term, sorted by name ascending, so that the first
      click on the name button turns the order to descending. */
  function Initial(): (r: TableState)
    ensures r.employees == [] && Shown(r) == []
    ensures r.form == EmptyForm && !r.isEdit && r.searchTerm == ""
    ensures ToggleSort(r.sort, ByName).order == Desc
    ensures ToggleSort(r.sort, BySalary).order == Asc
  {
    TableState([], EmptyForm, false, "", InitialSort)
  }

  /** The requests the screen sends to the employees endpoint. */
  datatype Request = Create(employee: Employee) | Update(id: string, employee: Employee) | Delete(id: string)

  /** A submit handler either alerts and returns, or sends one request. */
  datatype Handled = Rejected(alert: string) | Sent(request: Request)

  const AddAlert := "Please fill in all fields correctly before submitting."
  const UpdateAlert := "No employee selected for update"

  /** `handleSortChange`. */
  function ToggleSort(st: SortState, clicked: SortField): (r: SortState)
    ensures r.field == clicked
    ensures r.order == Desc <==> st.field == clicked && st.order == Asc
  {
    SortState(clicked, if st.field == clicked && st.order == Asc then Desc else Asc)
  }

  /** Clicking the same sort button again always flips the direction, so
      three clicks leave what one click left. */
  lemma SecondClickFlips(st: SortState, f: SortField)
    ensures ToggleSort(ToggleSort(st, f), f).order != ToggleSort(st, f).order
    ensures ToggleSort(ToggleSort(ToggleSort(st, f), f), f) == ToggleSort(st, f)
  {
  }

  /** The guard of `handleAddEmployee`. */
  predicate AddAccepted(values: Employee) {
    values.name != "" && values.company != "" && values.department != "" && values.salary > 0
  }

  /** The record `handleAddEmployee` sends: the form values with a fresh id and
      the foreign keys taken from the selected company, department and salary. */
  function CreatePayload(values: Employee, freshId: string): (r: Employee)
    ensures r.id == freshId
    ensures r.name == values.name && r.company == values.company
    ensures r.department == values.department && r.salary == values.salary
    ensures r.companyId == values.company && r.departmentId == values.department
    ensures Text.Canonical(r.salaryId) && Text.ParseDecimal(r.salaryId) == Some(values.salary)
  {
    Text.DecimalRoundTrip(values.salary);
    values.(id := freshId, companyId := values.company, departmentId := values.department,
            salaryId := Text.IntToDecimal(values.salary))
  }

  /** The record `handleUpdateEmployee` sends. Its `department` is the form's
      name, as the handler writes it. */
  function UpdatePayload(values: Employee): (r: Employee)
    ensures r.id == values.id && r.name == values.name
    ensures r.companyId == values.company && r.company == values.company
    ensures r.departmentId == values.department
    ensures r.department == values.name
    ensures r.salary == values.salary
    ensures Text.Canonical(r.salaryId) && Text.ParseDecimal(r.salaryId) == Some(values.salary)
  {
    Text.DecimalRoundTrip(values.salary);
    Employee(values.id, values.name, values.company, values.name, values.salary,
             values.department, values.company, Text.IntToDecimal(values.salary))
  }

  /** `handleAddEmployee` up to its write. */
  function HandleAdd(values: Employee, freshId: string): (r: Handled)
    ensures r.Rejected? <==>
              values.name == "" || values.company == "" || values.department == "" || values.salary <= 0
    ensures r.Rejected? ==> r.alert == AddAlert
    ensures r.Sent? ==> r.request == Create(CreatePayload(values, freshId))
  {
    if !AddAccepted(values) then Rejected(AddAlert) else Sent(Create(CreatePayload(values, freshId)))
  }

  /** `handleUpdateEmployee` up to its write: one request scoped to the form's id. */
  function HandleUpdate(values: Employee): (r: Handled)
    ensures r.Rejected? <==> values.id == ""
    ensures r.Rejected? ==> r.alert == UpdateAlert
    ensures r.Sent? ==> r.request == Update(values.id, UpdatePayload(values))
  {
    if values.id == "" then Rejected(UpdateAlert) else Sent(Update(values.id, UpdatePayload(values)))
  }

  /** The form schema: name, company and department are required. The salary
      is a number, which the schema's required-string test always accepts. */
  predicate SchemaAccepts(values: Employee) {
    values.name != "" && values.company != "" && values.department != ""
  }

  /** `handleEditEmployee`: load the row into the form and enter edit mode. */
  function Edit(st: TableState, emp: Employee): (r: TableState)
    ensures r.form == emp && r.isEdit
    ensures r.employees == st.employees && r.searchTerm == st.searchTerm && r.sort == st.sort
  {
    st.(form := emp, isEdit := true)
  }

  /** The reset button: empty form, leave edit mode. */
  function Reset(st: TableState): (r: TableState)
    ensures r.form == EmptyForm && !r.isEdit
    ensures r.employees == st.employees && r.searchTerm == st.searchTerm && r.sort == st.sort
  {
    st.(form := EmptyForm, isEdit := false)
  }

  /** A click on a sort button. */
  function ClickSort(st: TableState, clicked: SortField): (r: TableState)
    ensures r.sort == ToggleSort(st.sort, clicked)
    ensures r.employees == st.employees && r.form == st.form && r.isEdit == st.isEdit
    ensures r.searchTerm == st.searchTerm
  {
    st.(sort := ToggleSort(st.sort, clicked))
  }

  /** Typing in the search box. */
  function Search(st: TableState, term: string): (r: TableState)
    ensures r.searchTerm == term
    ensures r.employees == st.employees && r.form == st.form && r.isEdit == st.isEdit
    ensures r.sort == st.sort
  {
    st.(searchTerm := term)
  }

  /** The cards the screen renders, in order. */
  function Shown(st: TableState): (r: seq<Employee>)
    ensures forall e :: multiset(r)[e] ==
              if SearchHit(e, st.searchTerm) then multiset(st.employees)[e] else 0
    ensures InOrder(r, st.sort.field, st.sort.order)
  {
    Displayed(st.employees, st.searchTerm, st.sort.field, st.sort.order)
  }

  /** Submitting the form with `values`. The schema gates the handler; the
      handler is the update one in edit mode and the add one otherwise. A
      handler that sends its write goes on only if the write and the re-fetch
      both succeed: then the list is the re-fetched one, the form is empty and
      edit mode is off. Any failure leaves the screen as it was. */
  function Submit(st: TableState, values: Employee, freshId: string, outcome: Refresh<Employee>)
    : (r: Step<TableState, Request>)
    ensures values.name == "" || values.company == "" || values.department == "" ==> r == Step(st, None)
    ensures r.sent.Some? ==> (r.sent.value.Update? <==> st.isEdit) && !r.sent.value.Delete?
    ensures r.sent.Some? && st.isEdit ==> r.sent.value.id == values.id
    ensures r.sent.Some? ==>
              (r.sent.value == (if st.isEdit then Update(values.id, UpdatePayload(values))
                                else Create(CreatePayload(values, freshId))))
    ensures SchemaAccepts(values) && st.isEdit ==> (r.sent.None? <==> values.id == "")
    ensures SchemaAccepts(values) && !st.isEdit ==> (r.sent.None? <==> values.salary <= 0)
    ensures r.sent.None? || !outcome.Refreshed? ==> r.screen == st
    ensures r.sent.Some? && outcome.Refreshed? ==>
              r.screen == st.(employees := outcome.list, form := EmptyForm, isEdit := false)
  {
    if !SchemaAccepts(values) then Step(st, None)
    else
      var handled := if st.isEdit then HandleUpdate(values) else HandleAdd(values, freshId);
      match handled
      case Rejected(_) => Step(st, None)
      case Sent(request) =>
        match outcome
        case Refreshed(list) =>
          // the add handler leaves the flag alone, but it only runs when the flag is off
          Step(st.(employees := list, form := EmptyForm, isEdit := false), Some(request))
        case _ => Step(st, Some(request))
  }

  /** `handleDeleteEmployee`: one delete request; the list is replaced once the
      re-fetch returns, and is left alone otherwise. */
  function DeleteRow(st: TableState, id: string, outcome: Refresh<Employee>): (r: Step<TableState, Request>)
    ensures r.sent == Some(Delete(id))
    ensures outcome.Refreshed? ==> r.screen == st.(employees := outcome.list)
    ensures !outcome.Refreshed? ==> r.screen == st
  {
    match outcome
    case Refreshed(list) => Step(st.(employees := list), Some(Delete(id)))
    case _ => Step(st, Some(Delete(id)))
  }

  /** Editing a row and submitting it unchanged sends one update for that row's
      id, never a create. */
  lemma EditThenSubmitUpdates(st: TableState, emp: Employee, freshId: string, outcome: Refresh<Employee>)
    requires SchemaAccepts(emp) && emp.id != ""
    ensures Submit(Edit(st, emp), emp, freshId, outcome).sent == Some(Update(emp.id, UpdatePayload(emp)))
  {
  }

  /** After a reset, submitting valid values sends one create carrying a fresh
      id, and a successful round trip leaves the form empty. */
  lemma ResetThenSubmitCreates(st: TableState, values: Employee, freshId: string, list: seq<Employee>)
    requires SchemaAccepts(values) && values.salary > 0
    ensures Submit(Reset(st), values, freshId, Refreshed(list)).sent == Some(Create(CreatePayload(values, freshId)))
    ensures Submit(Reset(st), values, freshId, Refreshed(list)).screen.form == EmptyForm
    ensures Submit(Reset(st), values, freshId, Refreshed(list)).screen.employees == list
  {
  }
}

=== FILE: employee_view.dfy ===
/**
 What the employee table derives from the lists it holds: the display names of
 an employee's company, department and salary looked up by foreign key, the
 list narrowed by the search box, and that list ordered by name or salary.
 */
module EmployeeView {
  import opened Common
  import Seqs
  import Text
  import opened DatabaseService

  /** Placeholder shown when a foreign key resolves to no reference row. */
  const Unknown := "Unknown"

  /** Reference rows whose ids are pairwise different. */
  ghost predicate UniqueCompanyIds(companies: seq<Company>) {
    forall i, j :: 0 <= i < j < |companies| ==> companies[i].id != companies[j].id
  }

  ghost predicate UniqueDepartmentIds(departments: seq<Department>) {
    forall i, j :: 0 <= i < j < |departments| ==> departments[i].id != departments[j].id
  }

  ghost predicate UniqueSalaryIds(salaries: seq<Salary>) {
    forall i, j :: 0 <= i < j < |salaries| ==> salaries[i].id != salaries[j].id
  }

  /** `getCompanyNameById`: the name of the first company with that id. */
  function CompanyNameById(companies: seq<Company>, companyId: string): (r: string)
    ensures Seqs.NoneMatch(companies, CompanyWithId(companyId)) ==> r == Unknown
    ensures forall k :: Seqs.IsFirst(companies, CompanyWithId(companyId), k) ==> r == companies[k].name
  {
    var k := Seqs.FindIndex(companies, CompanyWithId(companyId));
    if k == -1 then Unknown else companies[k].name
  }

  /** `getDepartmentNameById`: the name of the first department with that id. */
  function DepartmentNameById(departments: seq<Department>, departmentId: string): (r: string)
    ensures Seqs.NoneMatch(departments, DepartmentWithId(departmentId)) ==> r == Unknown
    ensures forall k :: Seqs.IsFirst(departments, DepartmentWithId(departmentId), k) ==>
              r == departments[k].name
  {
    var k := Seqs.FindIndex(departments, DepartmentWithId(departmentId));
    if k == -1 then Unknown else departments[k].name
  }

  /** `getSalaryAmountById`: a dollar sign followed by the decimal amount of
      the first salary row with that id. */
  function SalaryAmountById(salaries: seq<Salary>, salaryId: string): (r: string)
    ensures Seqs.NoneMatch(salaries, SalaryWithId(salaryId)) ==> r == Unknown
    ensures forall k :: Seqs.IsFirst(salaries, SalaryWithId(salaryId), k) ==>
              && |r| > 1 && r[0] == '$'
              && Text.Canonical(r[1..]) && Text.ParseDecimal(r[1..]) == Some(salaries[k].amount)
  {
    var k := Seqs.FindIndex(salaries, SalaryWithId(salaryId));
    if k == -1 then Unknown
    else
      var shown := "$" + Text.IntToDecimal(salaries[k].amount);
      Text.DecimalRoundTrip(salaries[k].amount);
      assert shown[1..] == Text.IntToDecimal(salaries[k].amount);
      shown
  }

  /** With unique ids, looking up any reference row by its own id finds that row. */
  lemma LookupsFindEveryRow(companies: seq<Company>, departments: seq<Department>, salaries: seq<Salary>)
    requires UniqueCompanyIds(companies)
    requires UniqueDepartmentIds(departments)
    requires UniqueSalaryIds(salaries)
    ensures forall i :: 0 <= i < |companies| ==>
              CompanyNameById(companies, companies[i].id) == companies[i].name
    ensures forall i :: 0 <= i < |departments| ==>
              DepartmentNameById(departments, departments[i].id) == departments[i].name
    ensures forall i :: 0 <= i < |salaries| ==>
              Text.ParseDecimal(SalaryAmountById(salaries, salaries[i].id)[1..]) == Some(salaries[i].amount)
  {
    forall i | 0 <= i < |companies|
      ensures CompanyNameById(companies, companies[i].id) == companies[i].name
    {
      var p := CompanyWithId(companies[i].id);
      assert forall j :: 0 <= j < |companies| && p(companies[j]) ==> j == i;
      Seqs.OnlyMatchIsFirst(companies, p, i);
    }
    forall i | 0 <= i < |departments|
      ensures DepartmentNameById(departments, departments[i].id) == departments[i].name
    {
      var p := DepartmentWithId(departments[i].id);
      assert forall j :: 0 <= j < |departments| && p(departments[j]) ==> j == i;
      Seqs.OnlyMatchIsFirst(departments, p, i);
    }
    forall i | 0 <= i < |salaries|
      ensures Text.ParseDecimal(SalaryAmountById(salaries, salaries[i].id)[1..]) == Some(salaries[i].amount)
    {
      var p := SalaryWithId(salaries[i].id);
      assert forall j :: 0 <= j < |salaries| && p(salaries[j]) ==> j == i;
      Seqs.OnlyMatchIsFirst(salaries, p, i);
    }
  }

  /** `term` occurs in `hay` once both are lower-cased. */
  ghost predicate ContainsIgnoringCase(hay: string, term: string) {
    exists i :: Text.OccursAt(Text.Lower(hay), Text.Lower(term), i)
  }

  /** An employee the search box keeps: the term occurs in the name or in the
      department, ignoring case. */
  ghost predicate SearchHit(e: Employee, term: string) {
    ContainsIgnoringCase(e.name, term) || ContainsIgnoringCase(e.department, term)
  }

  function MatchesSearch(term: string): Employee -> bool {
    (e: Employee) =>
      Text.Includes(Text.Lower(e.name), Text.Lower(term))
      || Text.Includes(Text.Lower(e.department), Text.Lower(term))
  }

  /** `filteredEmployees`: the employees the search term hits, in list order. */
  function FilterEmployees(employees: seq<Employee>, searchTerm: string): (r: seq<Employee>)
    ensures forall i :: 0 <= i < |r| ==> SearchHit(r[i], searchTerm)
    ensures forall e :: multiset(r)[e] ==
              if SearchHit(e, searchTerm) then multiset(employees)[e] else 0
    ensures Seqs.IsSubsequence(r, employees)
  {
    Seqs.FilterIsSubsequence(employees, MatchesSearch(searchTerm));
    Seqs.Filter(employees, MatchesSearch(searchTerm))
  }

  /** An empty search term keeps every employee, in order. */
  lemma EmptySearchKeepsAll(employees: seq<Employee>)
    ensures FilterEmployees(employees, "") == employees
  {
    var p := MatchesSearch("");
    forall i | 0 <= i < |employees|
      ensures p(employees[i])
    {
      Text.IncludesEmpty(Text.Lower(employees[i].name));
    }
    Seqs.FilterKeepsAll(employees, p);
  }

  /** Searching for a term and for its lower-cased form keeps the same employees. */
  lemma SearchIgnoresTermCase(employees: seq<Employee>, term: string)
    ensures FilterEmployees(employees, Text.Lower(term)) == FilterEmployees(employees, term)
  {
    Text.LowerIdempotent(term);
    Seqs.FilterCongruent(employees, MatchesSearch(Text.Lower(term)), MatchesSearch(term));
  }

  datatype SortField = ByName | BySalary

  datatype SortOrder = Asc | Desc

  /** The sort field of `a` is strictly smaller than that of `b`. */
  predicate KeyLess(a: Employee, b: Employee, field: SortField) {
    match field
    case ByName => Text.StrLess(a.name, b.name)
    case BySalary => a.salary < b.salary
  }

  predicate SameKey(a: Employee, b: Employee, field: SortField) {
    match field
    case ByName => a.name == b.name
    case BySalary => a.salary == b.salary
  }

  /** The comparator handed to `sort`: ascending, 1 when `a`'s field is greater;
      descending, 1 when it is smaller; -1 in every other case, ties included. */
  function Comparator(a: Employee, b: Employee, field: SortField, order: SortOrder): (r: int)
    ensures r == 1 || r == -1
    ensures order == Asc ==> (r == 1 <==> KeyLess(b, a, field))
    ensures order == Desc ==> (r == 1 <==> KeyLess(a, b, field))
    ensures SameKey(a, b, field) ==> r == -1
  {
    var r := match order
      case Asc => if KeyLess(b, a, field) then 1 else -1
      case Desc => if KeyLess(a, b, field) then 1 else -1;
    KeyLessIrreflexive(a, b, field);
    r
  }

  /** The comparator asks for `a` to be placed after `b`. */
  predicate After(a: Employee, b: Employee, field: SortField, order: SortOrder) {
    Comparator(a, b, field, order) > 0
  }

  /** Non-decreasing in the field when ascending, non-increasing when descending. */
  ghost predicate InOrder(s: seq<Employee>, field: SortField, order: SortOrder) {
    match order
    case Asc => forall i, j :: 0 <= i < j < |s| ==> !KeyLess(s[j], s[i], field)
    case Desc => forall i, j :: 0 <= i < j < |s| ==> !KeyLess(s[i], s[j], field)
  }

  /** No element is placed after a later one. */
  ghost predicate Sorted(s: seq<Employee>, field: SortField, order: SortOrder) {
    forall i, j :: 0 <= i < j < |s| ==> !After(s[i], s[j], field, order)
  }

  lemma KeyLessIrreflexive(a: Employee, b: Employee, field: SortField)
    ensures SameKey(a, b, field) ==> !KeyLess(a, b, field) && !KeyLess(b, a, field)
  {
    if field == ByName {
      Text.StrLessIrreflexive(a.name);
    }
  }

  lemma KeyLessAsymmetric(a: Employee, b: Employee, field: SortField)
    requires KeyLess(a, b, field)
    ensures !KeyLess(b, a, field)
  {
    if field == ByName {
      Text.StrLessAsymmetric(a.name, b.name);
    }
  }

  lemma KeyLessTransitive(a: Employee, b: Employee, c: Employee, field: SortField)
    requires KeyLess(a, b, field) && KeyLess(b, c, field)
    ensures KeyLess(a, c, field)
  {
    if field == ByName {
      Text.StrLessTransitive(a.name, b.name, c.name);
    }
  }

  lemma KeyLessTotal(a: Employee, b: Employee, field: SortField)
    ensures KeyLess(a, b, field) || KeyLess(b, a, field) || SameKey(a, b, field)
  {
    if field == ByName {
      Text.StrLessTotal(a.name, b.name);
    }
  }

  lemma AfterAsymmetric(a: Employee, b: Employee, field: SortField, order: SortOrder)
    requires After(a, b, field, order)
    ensures !After(b, a, field, order)
  {
    if order == Asc {
      KeyLessAsymmetric(b, a, field);
    } else {
      KeyLessAsymmetric(a, b, field);
    }
  }

  /** "Not after" chains: the comparator induces a total preorder. */
  lemma NotAfterTransitive(a: Employee, b: Employee, c: Employee, field: SortField, order: SortOrder)
    requires !After(a, b, field, order) && !After(b, c, field, order)
    ensures !After(a, c, field, order)
  {
    // ascending: key(a) <= key(b) <= key(c); descending: the reverse
    var (x, y, z) := if order == Asc then (a, b, c) else (c, b, a);
    assert !KeyLess(y, x, field) && !KeyLess(z, y, field);
    KeyLessTotal(x, y, field);
    KeyLessTotal(y, z, field);
    if KeyLess(z, x, field) {
      if KeyLess(x, y, field) {
        KeyLessTransitive(z, x, y, field);
      } else if KeyLess(y, z, field) {
        KeyLessTransitive(y, z, x, field);
      }
    }
  }

  /** Insert `x` in front of the first element it need not come after. */
  function Insert(x: Employee, s: seq<Employee>, field: SortField, order: SortOrder): (r: seq<Employee>)
    ensures |r| == |s| + 1
    ensures multiset(r) == multiset(s) + multiset{x}
    decreases |s|
  {
    if |s| == 0 then [x]
    else if After(x, s[0], field, order) then
      assert s == [s[0]] + s[1..];
      [s[0]] + Insert(x, s[1..], field, order)
    else [x] + s
  }

  /** A sorted list stays sorted when an element that need not come after any
      of its entries is put in front. */
  lemma SortedCons(h: Employee, t: seq<Employee>, field: SortField, order: SortOrder)
    requires Sorted(t, field, order)
    requires forall j :: 0 <= j < |t| ==> !After(h, t[j], field, order)
    ensures Sorted([h] + t, field, order)
  {
    var r := [h] + t;
    forall i, j | 0 <= i < j < |r|
      ensures !After(r[i], r[j], field, order)
    {
      assert r[j] == t[j - 1];
      if i > 0 {
        assert r[i] == t[i - 1];
      }
    }
  }

  /** Every entry of `Insert(x, s)` other than `x` is an entry of `s`. */
  lemma InsertFrom(x: Employee, s: seq<Employee>, field: SortField, order: SortOrder, j: int)
    requires 0 <= j < |Insert(x, s, field, order)|
    ensures var y := Insert(x, s, field, order)[j]; y == x || y in s
  {
    var y := Insert(x, s, field, order)[j];
    assert y in multiset(Insert(x, s, field, order));
  }

  lemma {:induction false} InsertSorted(x: Employee, s: seq<Employee>, field: SortField, order: SortOrder)
    requires Sorted(s, field, order)
    ensures Sorted(Insert(x, s, field, order), field, order)
    decreases |s|
  {
    if |s| > 0 {
      if After(x, s[0], field, order) {
        var t := Insert(x, s[1..], field, order);
        InsertSorted(x, s[1..], field, order);
        forall j | 0 <= j < |t|
          ensures !After(s[0], t[j], field, order)
        {
          InsertFrom(x, s[1..], field, order, j);
          if t[j] == x {
            AfterAsymmetric(x, s[0], field, order);
          } else {
            var m :| 0 <= m < |s[1..]| && s[1..][m] == t[j];
            assert s[m + 1] == t[j];
          }
        }
        SortedCons(s[0], t, field, order);
      } else {
        forall j | 0 <= j < |s|
          ensures !After(x, s[j], field, order)
        {
          if j > 0 {
            NotAfterTransitive(x, s[0], s[j], field, order);
          }
        }
        SortedCons(x, s, field, order);
      }
    }
  }

  /** `sortedEmployees`: the list ordered by the comparator. The comparator
      never answers 0, so the order of employees with equal keys is up to the
      sort; this model keeps the one insertion sort produces. */
  function Sort(s: seq<Employee>, field: SortField, order: SortOrder): (r: seq<Employee>)
    ensures multiset(r) == multiset(s)
    ensures Sorted(r, field, order)
    ensures InOrder(r, field, order)
    decreases |s|
  {
    if |s| == 0 then []
    else
      var t := Sort(s[1..], field, order);
      InsertSorted(s[0], t, field, order);
      assert s == [s[0]] + s[1..];
      Insert(s[0], t, field, order)
  }

  /** Sorting an already sorted list returns it unchanged, so sorting twice is sorting once. */
  lemma {:induction false} SortKeepsSorted(s: seq<Employee>, field: SortField, order: SortOrder)
    requires Sorted(s, field, order)
    ensures Sort(s, field, order) == s
    decreases |s|
  {
    if |s| > 0 {
      SortKeepsSorted(s[1..], field, order);
      if |s| > 1 {
        assert !After(s[0], s[1..][0], field, order);
      }
      assert [s[0]] + s[1..] == s;
    }
  }

  lemma SortIdempotent(s: seq<Employee>, field: SortField, order: SortOrder)
    ensures Sort(Sort(s, field, order), field, order) == Sort(s, field, order)
  {
    SortKeepsSorted(Sort(s, field, order), field, order);
  }

  /** `sortedEmployees` as rendered: exactly the employees the search hits, each
      as often as in the list, ordered on the sort field. */
  function Displayed(employees: seq<Employee>, searchTerm: string, field: SortField, order: SortOrder)
    : (r: seq<Employee>)
    ensures forall e :: multiset(r)[e] ==
              if SearchHit(e, searchTerm) then multiset(employees)[e] else 0
    ensures InOrder(r, field, order)
  {
    Sort(FilterEmployees(employees, searchTerm), field, order)
  }

  const Bob := Employee("1", "Bob", "", "", 500, "", "", "")
  const Ann := Employee("2", "Ann", "", "", 900, "", "", "")

  lemma InsertIntoSingleton(a: Employee, b: Employee, field: SortField, order: SortOrder)
    ensures Insert(a, [b], field, order) == if After(a, b, field, order) then [b, a] else [a, b]
  {
    assert [b][1..] == [];
  }

  /** Sorting a pair: the first comes last exactly when the comparator places it after the second. */
  lemma SortPair(a: Employee, b: Employee, field: SortField, order: SortOrder)
    ensures Sort([a, b], field, order) == if After(a, b, field, order) then [b, a] else [a, b]
  {
    assert [a, b][1..] == [b] && [b][1..] == [];
    assert Sort([b], field, order) == [b];
    InsertIntoSingleton(a, b, field, order);
  }

  /** Two employees, Bob earning 500 and Ann earning 900: by name ascending Ann
      comes first, by salary ascending Bob does, by salary descending Ann does. */
  lemma TwoEmployeeExample()
    ensures Sort([Bob, Ann], ByName, Asc) == [Ann, Bob]
    ensures Sort([Bob, Ann], BySalary, Asc) == [Bob, Ann]
    ensures Sort([Bob, Ann], BySalary, Desc) == [Ann, Bob]
  {
    assert Text.FirstDifference(Ann.name, Bob.name, 0);
    SortPair(Bob, Ann, ByName, Asc);
    SortPair(Bob, Ann, BySalary, Asc);
    SortPair(Bob, Ann, BySalary, Desc);
  }
}

=== FILE: seqs.dfy ===
/**
 Generic list operations the source uses through JavaScript's array methods:
 `findIndex`, `filter`, and replacing the element at the first matching index.
 */
module Seqs {

  /** `p` holds at index `k` and at no earlier index. */
  ghost predicate IsFirst<T>(s: seq<T>, p: T -> bool, k: int) {
    0 <= k < |s| && p(s[k]) && forall j :: 0 <= j < k ==> !p(s[j])
  }

  /** No element of `s` satisfies `p`. */
  ghost predicate NoneMatch<T>(s: seq<T>, p: T -> bool) {
    forall i :: 0 <= i < |s| ==> !p(s[i])
  }

  /** `Array.prototype.findIndex`: the first index whose element satisfies `p`,
      or -1 when there is none. */
  function FindIndex<T>(s: seq<T>, p: T -> bool): (r: int)
    ensures -1 <= r < |s|
    ensures r == -1 <==> NoneMatch(s, p)
    ensures r != -1 ==> IsFirst(s, p, r)
  {
    if |s| == 0 then -1
    else if p(s[0]) then 0
    else
      var k := FindIndex(s[1..], p);
      assert forall j :: 1 <= j < |s| ==> s[j] == s[1..][j - 1];
      if k == -1 then -1 else k + 1
  }

  /** There is at most one index whose element satisfies `p`. */
  ghost predicate AtMostOne<T>(s: seq<T>, p: T -> bool) {
    forall i, j :: 0 <= i < |s| && 0 <= j < |s| && p(s[i]) && p(s[j]) ==> i == j
  }

  /** When at most one element satisfies `p`, any element that does is the first. */
  lemma OnlyMatchIsFirst<T>(s: seq<T>, p: T -> bool, k: int)
    requires AtMostOne(s, p)
    requires 0 <= k < |s| && p(s[k])
    ensures IsFirst(s, p, k)
    ensures FindIndex(s, p) == k
  {
    var r := FindIndex(s, p);
    assert r != -1;
  }

  /** Replace the element at the first index satisfying `p` by `f` of it, as
      `[...s.slice(0, k), f(s[k]), ...s.slice(k + 1)]`; no match leaves `s`. */
  function UpdateFirst<T>(s: seq<T>, p: T -> bool, f: T -> T): (r: seq<T>)
    ensures |r| == |s|
    ensures NoneMatch(s, p) ==> r == s
    ensures forall k :: IsFirst(s, p, k) ==>
              r[k] == f(s[k]) && forall j :: 0 <= j < |s| && j != k ==> r[j] == s[j]
  {
    var k := FindIndex(s, p);
    if k == -1 then s else s[..k] + [f(s[k])] + s[k + 1..]
  }

  /** `Array.prototype.filter`: the elements satisfying `p`, in their order. */
  function Filter<T(==,!new)>(s: seq<T>, p: T -> bool): (r: seq<T>)
    ensures |r| <= |s|
    ensures forall i :: 0 <= i < |r| ==> p(r[i])
    ensures forall x :: multiset(r)[x] == if p(x) then multiset(s)[x] else 0
  {
    if |s| == 0 then []
    else
      assert s == [s[0]] + s[1..];
      if p(s[0]) then [s[0]] + Filter(s[1..], p) else Filter(s[1..], p)
  }

  /** `a` is obtained from `b` by dropping elements, keeping the order of the rest. */
  predicate IsSubsequence<T(==)>(a: seq<T>, b: seq<T>)
    decreases |b|
  {
    if |a| == 0 then true
    else if |b| == 0 then false
    else if a[0] == b[0] then IsSubsequence(a[1..], b[1..])
    else IsSubsequence(a, b[1..])
  }

  lemma {:induction false} FilterIsSubsequence<T(!new)>(s: seq<T>, p: T -> bool)
    ensures IsSubsequence(Filter(s, p), s)
    decreases |s|
  {
    if |s| > 0 {
      FilterIsSubsequence(s[1..], p);
      var r := Filter(s, p);
      if p(s[0]) {
        assert r[0] == s[0] && r[1..] == Filter(s[1..], p);
      } else if |r| > 0 {
        assert r[0] != s[0];
      }
    }
  }

  /** Filtering a list whose every element passes returns it unchanged. */
  lemma {:induction false} FilterKeepsAll<T(!new)>(s: seq<T>, p: T -> bool)
    requires forall i :: 0 <= i < |s| ==> p(s[i])
    ensures Filter(s, p) == s
    decreases |s|
  {
    if |s| > 0 {
      FilterKeepsAll(s[1..], p);
    }
  }

  /** Filtering twice by the same predicate is filtering once. */
  lemma FilterIdempotent<T(!new)>(s: seq<T>, p: T -> bool)
    ensures Filter(Filter(s, p), p) == Filter(s, p)
  {
    FilterKeepsAll(Filter(s, p), p);
  }

  /** Filtering distributes over concatenation. */
  lemma {:induction false} FilterAppend<T(!new)>(a: seq<T>, b: seq<T>, p: T -> bool)
    ensures Filter(a + b, p) == Filter(a, p) + Filter(b, p)
    decreases |a|
  {
    if |a| > 0 {
      var ab := a + b;
      assert ab[0] == a[0] && ab[1..] == a[1..] + b;
      FilterAppend(a[1..], b, p);
      if p(a[0]) {
        assert Filter(ab, p) == [a[0]] + Filter(a[1..] + b, p);
        assert Filter(a, p) == [a[0]] + Filter(a[1..], p);
        calc {
          Filter(ab, p);
          [a[0]] + (Filter(a[1..], p) + Filter(b, p));
          ([a[0]] + Filter(a[1..], p)) + Filter(b, p);
        }
      } else {
        assert Filter(ab, p) == Filter(a[1..] + b, p);
        assert Filter(a, p) == Filter(a[1..], p);
      }
    } else {
      assert a + b == b;
    }
  }

  /** Filtering depends only on which elements pass. */
  lemma {:induction false} FilterCongruent<T(!new)>(s: seq<T>, p: T -> bool, q: T -> bool)
    requires forall x :: p(x) == q(x)
    ensures Filter(s, p) == Filter(s, q)
    decreases |s|
  {
    if |s| > 0 {
      FilterCongruent(s[1..], p, q);
    }
  }
}

=== FILE: text.dfy ===
/**
 The string operations the screens rely on, restricted to what the model needs:
 `toLowerCase` on ASCII letters, `includes`, the `<` / `>` order of strings
 (code unit by code unit, a proper prefix being smaller), and the decimal
 rendering of an integral number (`toString()` and template interpolation).
 */
module Text {
  import opened Common

  predicate IsUpper(c: char) {
    'A' <= c <= 'Z'
  }

  /** ASCII `toLowerCase` of one character. */
  function LowerChar(c: char): (r: char)
    ensures !IsUpper(r)
    ensures IsUpper(c) ==> 'a' <= r <= 'z' && r as int - c as int == 'a' as int - 'A' as int
    ensures !IsUpper(c) ==> r == c
  {
    if IsUpper(c) then (c as int - 'A' as int + 'a' as int) as char else c
  }

  /** ASCII `toLowerCase` of a string. */
  function Lower(s: string): (r: string)
    ensures |r| == |s|
    ensures forall i :: 0 <= i < |s| ==> r[i] == LowerChar(s[i])
  {
    seq(|s|, i requires 0 <= i < |s| => LowerChar(s[i]))
  }

  /** Lower-casing leaves no upper-case letter, so doing it twice changes nothing. */
  lemma LowerIdempotent(s: string)
    ensures forall i :: 0 <= i < |Lower(s)| ==> !IsUpper(Lower(s)[i])
    ensures Lower(Lower(s)) == Lower(s)
  {
  }

  /** `needle` occurs in `hay` starting at index `i`. */
  predicate OccursAt(hay: string, needle: string, i: int) {
    0 <= i && i + |needle| <= |hay| && hay[i..i + |needle|] == needle
  }

  /** `String.prototype.includes`: `needle` occurs somewhere in `hay`. */
  function Includes(hay: string, needle: string): (r: bool)
    ensures r <==> exists i :: OccursAt(hay, needle, i)
    decreases |hay|
  {
    if |hay| < |needle| then false
    else if hay[..|needle|] == needle then
      assert OccursAt(hay, needle, 0);
      true
    else
      var rest := Includes(hay[1..], needle);
      forall i
        ensures OccursAt(hay[1..], needle, i) <==> OccursAt(hay, needle, i + 1)
      {
        if 0 <= i && i + |needle| <= |hay| - 1 {
          assert hay[1..][i..i + |needle|] == hay[i + 1..i + 1 + |needle|];
        }
      }
      assert forall i :: OccursAt(hay, needle, i) ==> i != 0;
      if rest then
        var j :| OccursAt(hay[1..], needle, j);
        assert OccursAt(hay, needle, j + 1);
        true
      else
        assert forall i :: OccursAt(hay, needle, i) ==> OccursAt(hay[1..], needle, i - 1);
        false
  }

  /** Every string includes the empty string. */
  lemma IncludesEmpty(hay: string)
    ensures Includes(hay, "")
  {
    assert OccursAt(hay, "", 0);
  }

  /** `k` is the first index at which `a` and `b` differ. */
  predicate FirstDifference(a: string, b: string, k: int) {
    0 <= k < |a| && k < |b| && a[..k] == b[..k] && a[k] != b[k]
  }

  /** The order JavaScript's `<` puts on strings: the first differing code unit
      decides, and a proper prefix comes first. */
  function StrLess(a: string, b: string): (r: bool)
    ensures r ==> a != b
    ensures |a| <= |b| && a == b[..|a|] ==> (r <==> |a| < |b|)
    ensures |b| < |a| && b == a[..|b|] ==> !r
    ensures forall k :: FirstDifference(a, b, k) ==> (r <==> a[k] < b[k])
    decreases |a|
  {
    if |a| == 0 then |b| > 0
    else if |b| == 0 then false
    else
      assert |a| <= |b| && a == b[..|a|] ==> a[1..] == b[1..][..|a| - 1];
      assert forall k :: FirstDifference(a, b, k) && k > 0 ==> FirstDifference(a[1..], b[1..], k - 1) by {
        forall k | FirstDifference(a, b, k) && k > 0
          ensures FirstDifference(a[1..], b[1..], k - 1)
        {
          assert a[0] == a[..k][0] == b[..k][0] == b[0];
          assert a[1..][..k - 1] == a[1..k] == a[..k][1..];
          assert b[1..][..k - 1] == b[1..k] == b[..k][1..];
        }
      }
      a[0] < b[0] || (a[0] == b[0] && StrLess(a[1..], b[1..]))
  }

  lemma {:induction false} StrLessIrreflexive(a: string)
    ensures !StrLess(a, a)
    decreases |a|
  {
    if |a| > 0 {
      StrLessIrreflexive(a[1..]);
    }
  }

  lemma {:induction false} StrLessTransitive(a: string, b: string, c: string)
    requires StrLess(a, b) && StrLess(b, c)
    ensures StrLess(a, c)
    decreases |a|
  {
    if |a| > 0 && a[0] == b[0] && b[0] == c[0] {
      StrLessTransitive(a[1..], b[1..], c[1..]);
    }
  }

  /** Any two different strings are ordered one way or the other. */
  lemma {:induction false} StrLessTotal(a: string, b: string)
    ensures a == b || StrLess(a, b) || StrLess(b, a)
    decreases |a|
  {
    if |a| > 0 && |b| > 0 && a[0] == b[0] {
      StrLessTotal(a[1..], b[1..]);
      if a[1..] == b[1..] {
        assert a == [a[0]] + a[1..] && b == [b[0]] + b[1..];
      }
    }
  }

  /** Strict order of strings is asymmetric. */
  lemma StrLessAsymmetric(a: string, b: string)
    requires StrLess(a, b)
    ensures !StrLess(b, a)
  {
    if StrLess(b, a) {
      StrLessTransitive(a, b, a);
      StrLessIrreflexive(a);
    }
  }

  predicate IsDigit(c: char) {
    '0' <= c <= '9'
  }

  predicate AllDigits(s: string) {
    forall i :: 0 <= i < |s| ==> IsDigit(s[i])
  }

  function DigitChar(d: nat): (c: char)
    requires d < 10
    ensures IsDigit(c) && c as int - '0' as int == d
  {
    ('0' as int + d) as char
  }

  /** Digits with no leading zero: "0" itself, or a string of digits that
      does not start with '0'. */
  predicate CanonicalDigits(s: string) {
    |s| > 0 && AllDigits(s) && (s[0] == '0' ==> |s| == 1)
  }

  /** The text `toString()` gives an integral number: canonical digits, or a
      minus sign before canonical digits of a non-zero magnitude (no "-0"). */
  predicate Canonical(s: string) {
    CanonicalDigits(s) || (|s| > 1 && s[0] == '-' && CanonicalDigits(s[1..]) && s[1] != '0')
  }

  /** Decimal digits of a natural number, most significant first, no leading zero. */
  function NatToDecimal(n: nat): (r: string)
    ensures CanonicalDigits(r)
    ensures r[0] == '0' ==> n == 0
    decreases n
  {
    if n < 10 then [DigitChar(n)] else NatToDecimal(n / 10) + [DigitChar(n % 10)]
  }

  /** `Number.prototype.toString()` of an integral number: an optional minus
      sign followed by the decimal digits of its magnitude. */
  function IntToDecimal(n: int): (r: string)
    ensures Canonical(r)
    ensures n < 0 <==> r[0] == '-'
  {
    if n < 0 then "-" + NatToDecimal(-n) else NatToDecimal(n)
  }

  /** The number denoted by a string of decimal digits. */
  function DigitsValue(s: string): nat
    requires AllDigits(s)
    decreases |s|
  {
    if |s| == 0 then 0
    else DigitsValue(s[..|s| - 1]) * 10 + (s[|s| - 1] as int - '0' as int)
  }

  /** Reads back an optional minus sign followed by at least one digit. */
  function ParseDecimal(s: string): (r: Option<int>)
    ensures r.Some? ==> |s| > 0
  {
    if |s| > 1 && s[0] == '-' && AllDigits(s[1..]) then Some(0 - DigitsValue(s[1..]))
    else if |s| > 0 && AllDigits(s) then Some(DigitsValue(s))
    else None
  }

  lemma {:induction false} NatDecimalRoundTrip(n: nat)
    ensures DigitsValue(NatToDecimal(n)) == n
    decreases n
  {
    if n >= 10 {
      NatDecimalRoundTrip(n / 10);
      var r := NatToDecimal(n);
      assert r[..|r| - 1] == NatToDecimal(n / 10);
    }
  }

  /** Parsing undoes rendering: the decimal text of `n` reads back as `n`. */
  lemma DecimalRoundTrip(n: int)
    ensures ParseDecimal(IntToDecimal(n)) == Some(n)
  {
    var r := IntToDecimal(n);
    if n < 0 {
      NatDecimalRoundTrip(-n);
      assert r[1..] == NatToDecimal(-n);
    } else {
      NatDecimalRoundTrip(n);
    }
  }

  /** Canonical digits are the only digits that denote their value. */
  lemma {:induction false} CanonicalDigitsUnique(t: string)
    requires CanonicalDigits(t)
    ensures t == NatToDecimal(DigitsValue(t))
    decreases |t|
  {
    if |t| > 1 {
      var u := t[..|t| - 1];
      assert u[0] == t[0] && AllDigits(u);
      CanonicalDigitsUnique(u);
      assert DigitsValue(u) != 0;
      var m := DigitsValue(t);
      assert m / 10 == DigitsValue(u) && m % 10 == t[|t| - 1] as int - '0' as int;
      assert t == u + [t[|t| - 1]];
    }
  }

  /** A canonical text that reads back as `n` is the text of `n`: the decimal
      rendering is the one canonical spelling of each integer. */
  lemma CanonicalUnique(t: string, n: int)
    requires Canonical(t) && ParseDecimal(t) == Some(n)
    ensures t == IntToDecimal(n)
  {
    if CanonicalDigits(t) {
      CanonicalDigitsUnique(t);
    } else {
      var u := t[1..];
      CanonicalDigitsUnique(u);
      assert DigitsValue(u) != 0;
      assert t == "-" + u;
    }
  }

  /** Different numbers have different decimal texts. */
  lemma DecimalInjective(a: int, b: int)
    requires IntToDecimal(a) == IntToDecimal(b)
    ensures a == b
  {
    DecimalRoundTrip(a);
    DecimalRoundTrip(b);
  }
}
